=== FILE: README.md ===
# CAP in-memory monitoring and consumer invocation, in Dafny

This project models two parts of the CAP delivery engine as pure functions and
proves what they promise.

- **The in-memory monitoring API** (`InMemoryMonitoringApi`). It answers the
  dashboard's read-only queries over a snapshot of the published and received
  message collections:
  - lookup of one message by id;
  - the statistics block and the four single counters;
  - the filtered, paged message listing;
  - the 24-entry hourly timeline behind `HourlyFailedJobs` and
    `HourlySucceededJobs`.
- **The consumer invoker** (`DefaultConsumerInvoker`). For one delivered
  message, it unpacks the envelope and binds the inner content to the
  handler's first parameter. It then runs the handler and, when the envelope
  names a reply topic, builds the callback message that carries the result
  back.

Modules:

| file | module | contents |
|---|---|---|
| `common.dfy` | `Common` | `Option`, `Result`, `string.IsNullOrEmpty`, the C# `int`/`long` ranges and unchecked 32-bit wrap-around |
| `text.dfy` | `Text` | ignore-case equality under an abstract case folding, ordinal `Contains`, invariant-culture rendering of integers |
| `messages.dfy` | `Messages` | `StatusName`, stored messages, the two-collection store, clock hours |
| `linq.dfy` | `Linq` | `Where`, `Count`, `Select`, `Skip`, `Take`, `FirstOrDefault`, and their algebra |
| `monitoring.dfy` | `InMemoryMonitoring` | the monitoring queries |
| `monitoring_proofs.dfy` | `MonitoringProofs` | properties relating several queries: paging reassembly, status partition, timeline totals, scenarios |
| `invoker.dfy` | `ConsumerInvoker` | the invocation decision procedure and its reply |

The store is two sequences, one per direction, in the order the dictionaries
enumerate their values. A time is a whole number of seconds, and its clock
hour is the time divided by 3600. Two times print the same
`"yyyy-MM-dd-HH"` text exactly when they fall in the same clock hour. "Now"
is a parameter. `StringComparison.InvariantCultureIgnoreCase` is modelled as
character-wise equality after an arbitrary per-character folding. Every
statement proved about it holds whatever that folding is.

The invoker's collaborators are function values:
- the handler, as a function from arguments to "returned a value" or "threw";
- the binder, as a function from a parameter and a string to "bound", "not
  bound" or "threw";
- the packer and the content serializer.

An invocation yields either the exception that escapes, or the handler's
result together with at most one callback message.

## Model

| member | source | states |
|---|---|---|
| Text.InvariantStringInjective | src/DotNetCore.CAP.InMemoryStorage/IMonitoringApi.InMemory.cs:18-26 | `id.ToString(InvariantCulture)` renders distinct ids as distinct strings, so the lookup key identifies the id |
| Text.DigitsRoundTrip | src/DotNetCore.CAP.InMemoryStorage/IMonitoringApi.InMemory.cs:20 | the decimal digits of a number read back as that number |
| Linq.FirstOrDefault | src/DotNetCore.CAP.InMemoryStorage/IMonitoringApi.InMemory.cs:20 | the result is absent exactly when no element satisfies the predicate; otherwise it is the first element that does |
| Linq.Where | src/DotNetCore.CAP.InMemoryStorage/IMonitoringApi.InMemory.cs:57-70 | a filter keeps only satisfying elements and never lengthens the sequence |
| Linq.WhereMultiset | src/DotNetCore.CAP.InMemoryStorage/IMonitoringApi.InMemory.cs:57-70 | a filter keeps every occurrence of a satisfying value and drops every other value |
| Linq.WhereWhere | src/DotNetCore.CAP.InMemoryStorage/IMonitoringApi.InMemory.cs:99-117 | two chained filters are one filter by their conjunction |
| Linq.WhereAppend | src/DotNetCore.CAP.InMemoryStorage/IMonitoringApi.InMemory.cs:57-70 | filtering distributes over concatenation, so the source order is kept |
| Linq.Count | src/DotNetCore.CAP.InMemoryStorage/IMonitoringApi.InMemory.cs:92 | `Count()` of a filtered sequence is the length of the filter's output |
| Linq.CountPositions | src/DotNetCore.CAP.InMemoryStorage/IMonitoringApi.InMemory.cs:32-36 | `Count(p)` is the number of positions whose element satisfies `p` |
| Linq.CountDisjointUnion | src/DotNetCore.CAP.InMemoryStorage/IMonitoringApi.InMemory.cs:181-184 | counting by a disjoint union of two predicates adds their counts |
| Linq.Skip | src/DotNetCore.CAP.InMemoryStorage/IMonitoringApi.InMemory.cs:89 | `Skip(n)` skips nothing for `n <= 0` and yields the suffix after the first `n` elements otherwise |
| Linq.Take | src/DotNetCore.CAP.InMemoryStorage/IMonitoringApi.InMemory.cs:89 | `Take(n)` yields nothing for `n <= 0` and a prefix of at most `n` elements otherwise |
| Linq.SkipTakeSlice | src/DotNetCore.CAP.InMemoryStorage/IMonitoringApi.InMemory.cs:137 | `Skip(offset).Take(size)` with a non-negative size is the window of `size` elements starting at `offset`, or at 0 when `offset` is negative |
| Linq.WindowConcat | src/DotNetCore.CAP.InMemoryStorage/IMonitoringApi.InMemory.cs:137 | adjacent windows join into one |
| Linq.ConcatWindows | src/DotNetCore.CAP.InMemoryStorage/IMonitoringApi.InMemory.cs:137 | consecutive windows of a fixed size, laid end to end, are the window from the start to the end of the last |
| Common.WrapInt32 | src/DotNetCore.CAP.InMemoryStorage/IMonitoringApi.InMemory.cs:72 | the unchecked `int` product is congruent to the true product modulo 2^32 and equals it when it is in range |
| Messages.HourBucket | src/DotNetCore.CAP.InMemoryStorage/IMonitoringApi.InMemory.cs:183 | an instant lies inside the clock hour it is grouped under |
| Messages.HourBucketShift | src/DotNetCore.CAP.InMemoryStorage/IMonitoringApi.InMemory.cs:172 | going back `i` hours lands in the `i`-th earlier clock hour |
| Messages.StatusTextInjective | src/DotNetCore.CAP.InMemoryStorage/IMonitoringApi.InMemory.cs:182 | comparing `StatusName.ToString()` texts compares the statuses |
| InMemoryMonitoring.GetPublishedMessage | src/DotNetCore.CAP.InMemoryStorage/IMonitoringApi.InMemory.cs:18-21 | the result is absent exactly when no published message has the id's invariant text as `DbId`; otherwise it is the first such message |
| InMemoryMonitoring.GetReceivedMessage | src/DotNetCore.CAP.InMemoryStorage/IMonitoringApi.InMemory.cs:23-26 | the same for the received collection |
| MonitoringProofs.LookupIdentifiesId | src/DotNetCore.CAP.InMemoryStorage/IMonitoringApi.InMemory.cs:18-26 | no stored message is found by two different ids |
| InMemoryMonitoring.CountWithStatus | src/DotNetCore.CAP.InMemoryStorage/IMonitoringApi.InMemory.cs:32-36 | the count is the number of positions holding a message in that exact status |
| InMemoryMonitoring.PublishedFailedCount | src/DotNetCore.CAP.InMemoryStorage/IMonitoringApi.InMemory.cs:145-148 | the number of published messages in status `Failed` |
| InMemoryMonitoring.PublishedSucceededCount | src/DotNetCore.CAP.InMemoryStorage/IMonitoringApi.InMemory.cs:150-153 | the number of published messages in status `Succeeded` |
| InMemoryMonitoring.ReceivedFailedCount | src/DotNetCore.CAP.InMemoryStorage/IMonitoringApi.InMemory.cs:155-158 | the number of received messages in status `Failed` |
| InMemoryMonitoring.ReceivedSucceededCount | src/DotNetCore.CAP.InMemoryStorage/IMonitoringApi.InMemory.cs:160-163 | the number of received messages in status `Succeeded` |
| InMemoryMonitoring.GetStatistics | src/DotNetCore.CAP.InMemoryStorage/IMonitoringApi.InMemory.cs:28-39 | every statistics field agrees with the matching single counter; `PublishedDelayed` counts the published messages in status `Delayed` |
| MonitoringProofs.StatusCountsPartition | src/DotNetCore.CAP.InMemoryStorage/IMonitoringApi.InMemory.cs:28-39 | every message has exactly one status: the five per-status counts of a direction add up to its size |
| InMemoryMonitoring.FilterChain | src/DotNetCore.CAP.InMemoryStorage/IMonitoringApi.InMemory.cs:97-117 | the chain of `Where` calls, one per non-empty query field, selects exactly the messages that pass every active filter, in store order |
| InMemoryMonitoring.FilterChainProof | src/DotNetCore.CAP.InMemoryStorage/IMonitoringApi.InMemory.cs:97-117 | each stage of the chain is one filter by the conjunction of the conditions applied so far |
| InMemoryMonitoring.ViewOfMatch | src/DotNetCore.CAP.InMemoryStorage/IMonitoringApi.InMemory.cs:122-133 | a listing row satisfies, on its own fields, every filter its message passed |
| InMemoryMonitoring.PageItems | src/DotNetCore.CAP.InMemoryStorage/IMonitoringApi.InMemory.cs:122-137 | the rows of a page pass the filters. With a non-negative size they are the window of projected matching messages at the offset, or at 0 when the offset is negative. A negative size gives no rows |
| InMemoryMonitoring.Page | src/DotNetCore.CAP.InMemoryStorage/IMonitoringApi.InMemory.cs:72-93 | page index and size are echoed, and the total counts the whole filtered set. Every row passes every active filter. A non-negative size gives the window of the filtered rows at the offset, or at 0 when the offset is negative. A negative size gives no rows |
| InMemoryMonitoring.GetMessages | src/DotNetCore.CAP.InMemoryStorage/IMonitoringApi.InMemory.cs:119-141 | computes the offset as the true product `CurrentPage * PageSize`. The items are the filtered rows from that offset, or from 0 when it is negative, up to `PageSize` more. A negative `PageSize` gives no rows. `Totals` counts every matching message |
| InMemoryMonitoring.GetMessagesAsWritten | src/DotNetCore.CAP.InMemoryStorage/IMonitoringApi.InMemory.cs:119-141 | the same as `GetMessages`, except the offset is the 32-bit wrapped product, and a negative wrapped offset reads from 0. The echo, the total and the filters hold as before |
| MonitoringProofs.ListedRowsKeepFields | src/DotNetCore.CAP.InMemoryStorage/IMonitoringApi.InMemory.cs:122-133 | for both listings and any page and size, each row comes from a stored message of the queried direction that passes the filters. It keeps that message's `Added`, `Content`, `ExpiresAt`, `Name` and `Retries`. Its `Id` is the `DbId`, its version is `"N/A"`, and the group is copied on the received side only |
| MonitoringProofs.PageRowKeepsFields | src/DotNetCore.CAP.InMemoryStorage/IMonitoringApi.InMemory.cs:75-89 | the same, for the page at any skip offset |
| MonitoringProofs.NoFiltersListEverything | src/DotNetCore.CAP.InMemoryStorage/IMonitoringApi.InMemory.cs:97-117 | with every filter empty, the listing covers the whole direction in store order, and the total is its size |
| MonitoringProofs.PublishedListingIgnoresGroup | src/DotNetCore.CAP.InMemoryStorage/IMonitoringApi.InMemory.cs:53-93 | the published listing is the same whatever group the query names |
| MonitoringProofs.RowsIgnorePage | src/DotNetCore.CAP.InMemoryStorage/IMonitoringApi.InMemory.cs:119-133 | the filtered rows do not depend on the requested page |
| MonitoringProofs.NthPage | src/DotNetCore.CAP.InMemoryStorage/IMonitoringApi.InMemory.cs:119-137 | page `c` of the corrected listing `GetMessages` holds the filtered rows from `c * size` up to `c * size + size` |
| MonitoringProofs.PagesReassemble | src/DotNetCore.CAP.InMemoryStorage/IMonitoringApi.InMemory.cs:119-141 | pages `0 .. k-1` of the corrected listing `GetMessages`, concatenated, are the first `k * size` filtered rows, with nothing repeated or skipped |
| MonitoringProofs.AllPagesCoverListing | src/DotNetCore.CAP.InMemoryStorage/IMonitoringApi.InMemory.cs:119-141 | enough pages of the corrected listing `GetMessages` reproduce the whole filtered listing, whose length is `Totals` |
| MonitoringProofs.AsWrittenAgreesWithoutOverflow | src/DotNetCore.CAP.InMemoryStorage/IMonitoringApi.InMemory.cs:119-137 | when `CurrentPage * PageSize` fits in an `int`, the listing as written and the corrected listing are equal |
| MonitoringProofs.PagesAsWrittenReassemble | src/DotNetCore.CAP.InMemoryStorage/IMonitoringApi.InMemory.cs:72-89 | while `k * size` is at most 2^31, pages `0 .. k-1` of the listing as written, concatenated, are the first `k * size` filtered rows; past that a page offset wraps, and the rows can repeat |
| MonitoringProofs.NonPositiveOffsetGivesFirstPage | src/DotNetCore.CAP.InMemoryStorage/IMonitoringApi.InMemory.cs:72-89 | `Skip` treats a negative count as 0. So a listing whose offset is not positive, such as a negative page with a positive size, returns page 0. This holds for the corrected listing and, by its wrapped offset, for the listing as written |
| MonitoringProofs.OffsetOverflowReturnsFirstPage | src/DotNetCore.CAP.InMemoryStorage/IMonitoringApi.InMemory.cs:72-89 | page 2147483647 of size 2 over two messages: the listing as written returns exactly page 0, both rows, whereas no rows exist at the true offset |
| MonitoringProofs.ThirtyOrdersThirdPage | src/DotNetCore.CAP.InMemoryStorage/IMonitoringApi.InMemory.cs:62-93 | thirty matching messages with distinct ids, pages of ten: page 2 of the listing as written holds the last ten, and the total is thirty |
| InMemoryMonitoring.GroupByHour | src/DotNetCore.CAP.InMemoryStorage/IMonitoringApi.InMemory.cs:181-184 | the grouping has a key exactly for the hours some message was added in, and each value is the number of messages added in that hour |
| InMemoryMonitoring.GroupByHourStep | src/DotNetCore.CAP.InMemoryStorage/IMonitoringApi.InMemory.cs:181-184 | adding one more message increments its hour's count and leaves the other hours as they were |
| InMemoryMonitoring.ZeroFill | src/DotNetCore.CAP.InMemoryStorage/IMonitoringApi.InMemory.cs:194-200 | after the loop every key is present, existing counts are kept, and the added keys count 0 |
| InMemoryMonitoring.HourlyTimelineStats | src/DotNetCore.CAP.InMemoryStorage/IMonitoringApi.InMemory.cs:165-209 | exactly 24 entries keyed `now - i` hours, in 24 distinct clock hours. Each value counts the messages of that direction whose status text is the given name and that were added in that key's hour; an hour without such messages counts 0 |
| InMemoryMonitoring.TimelineEntryCount | src/DotNetCore.CAP.InMemoryStorage/IMonitoringApi.InMemory.cs:203-207 | the value read for the `i`-th key is the count of its hour, zero when the grouping lacks that hour |
| MonitoringProofs.TimelineTotal | src/DotNetCore.CAP.InMemoryStorage/IMonitoringApi.InMemory.cs:165-209 | the 24 values add up to the messages of that status added in the 24 hours ending with the current one; messages outside those hours contribute nothing |
| MonitoringProofs.TimelineSum | src/DotNetCore.CAP.InMemoryStorage/IMonitoringApi.InMemory.cs:194-207 | any 24 entries keyed by the last 24 hours, each counting its own hour, add up to the count over those hours |
| MonitoringProofs.TimelinePrefixTotal | src/DotNetCore.CAP.InMemoryStorage/IMonitoringApi.InMemory.cs:203-207 | the first `k` entries together count the messages of the `k` most recent hours |
| MonitoringProofs.HoursStep | src/DotNetCore.CAP.InMemoryStorage/IMonitoringApi.InMemory.cs:181-184 | counting a range of hours is counting its first hour plus the rest |
| InMemoryMonitoring.HourlyFailedJobs | src/DotNetCore.CAP.InMemoryStorage/IMonitoringApi.InMemory.cs:41-44 | the 24 entries count, hour by hour, the messages in status `Failed` |
| InMemoryMonitoring.HourlySucceededJobs | src/DotNetCore.CAP.InMemoryStorage/IMonitoringApi.InMemory.cs:46-49 | the 24 entries count, hour by hour, the messages in status `Succeeded` |
| InMemoryMonitoring.TimelineByStatus | src/DotNetCore.CAP.InMemoryStorage/IMonitoringApi.InMemory.cs:41-49 | the timeline for a status's name counts the messages in that status |
| InMemoryMonitoring.CountByStatusName | src/DotNetCore.CAP.InMemoryStorage/IMonitoringApi.InMemory.cs:182 | counting by a status's text within hour `h` counts the positions holding that status and added in hour `h` |
| ConsumerInvoker.Execute | src/DotNetCore.CAP/Internal/IConsumerInvoker.Default.cs:61-66 | the parameterless handler's return value is the result, and any exception it throws escapes, a `FormatException` included |
| ConsumerInvoker.ExecuteWithParameter | src/DotNetCore.CAP/Internal/IConsumerInvoker.Default.cs:68-90 | an unsuccessful binding raises `MethodBindException` with the parameter name and content. A `FormatException` from the binder or the handler yields `null`. Any other exception escapes unchanged. When the model is bound, the handler's return value is the result unchanged. No `FormatException` ever escapes |
| ConsumerInvoker.CallbackMessage | src/DotNetCore.CAP/Internal/IConsumerInvoker.Default.cs:92-117 | the reply goes to the callback topic with status `Scheduled`. Under a round-tripping packer, its content unpacks to the original id and the serialized result, with no reply topic |
| ConsumerInvoker.Invoke | src/DotNetCore.CAP/Internal/IConsumerInvoker.Default.cs:37-59 | an unpack failure escapes. Otherwise the invocation completes exactly when the handler path does, with its result. A callback exists exactly when the invocation completed and the envelope's callback name is neither null nor empty. It carries that name, `Scheduled`, and the packed id and serialized result |
| ConsumerInvoker.BoundModelReachesHandler | src/DotNetCore.CAP/Internal/IConsumerInvoker.Default.cs:51-80 | a handler with a parameter runs on the model bound from the inner content, and its return value is the result |
| ConsumerInvoker.FormatExceptionOnlySwallowedWithParameter | src/DotNetCore.CAP/Internal/IConsumerInvoker.Default.cs:51-89 | a handler that throws a `FormatException` with any message fails the invocation with it when it has no parameter. With one parameter it completes with `null`, and with a reply when a callback name is given |
| ConsumerInvoker.HandlerExceptionEscapes | src/DotNetCore.CAP/Internal/IConsumerInvoker.Default.cs:52-89 | an exception other than `FormatException` thrown by the handler, with or without a parameter, fails the invocation with that same exception, and no callback is built |
| ConsumerInvoker.BindFailureEscapes | src/DotNetCore.CAP/Internal/IConsumerInvoker.Default.cs:75-82 | an unsuccessful binding fails the whole invocation with `MethodBindException`, so no callback is built |
| ConsumerInvoker.ReplyCorrelates | src/DotNetCore.CAP/Internal/IConsumerInvoker.Default.cs:101-106 | the callback's content unpacks to the original message id and the serialized result |
| ConsumerInvoker.ReplyProducesNoFurtherCallback | src/DotNetCore.CAP/Internal/IConsumerInvoker.Default.cs:101-106 | the reply's envelope names no reply topic, so invoking any consumer on it builds no further callback |
| ConsumerInvoker.OrderReply | src/DotNetCore.CAP/Internal/IConsumerInvoker.Default.cs:92-115 | a handler returning a result for a message that asks for a reply on `"order.reply"` yields exactly one callback. It goes to that topic with status `Scheduled`, and its content carries the original id |

## Left out

- I/O and concurrency. The static `ConcurrentDictionary` collections are a
  snapshot sequence per direction, and `DateTime.Now` is a parameter.
  `Task`/`ValueTask` asynchrony is dropped: a query's value is its result.
- Clock details. `DateTimeKind`, daylight-saving transitions and the range
  limits of `DateTime` are not modelled: `AddHours` past `DateTime.MinValue`
  would throw. Times are whole seconds, so sub-second parts, which do not
  change the hour, are dropped.
- The culture's case-folding table. Ignore-case equality is taken as
  character-wise equality under an arbitrary folding, so no proof depends on
  a particular culture. Surrogate pairs and multi-character foldings are not
  modelled. `InvariantCultureIgnoreCase` is a culture comparison, not only a
  case folding: it skips ignorable code points such as U+00AD and treats
  canonically equivalent forms as equal, so two strings of different lengths
  can compare equal. The model's equality is character by character and
  never equates strings of different lengths.
- Null strings. A stored message with a null `Name`, `Group` or `Content`
  would make a filter throw `NullReferenceException`. Every stored string is
  present here.
- `ToDictionary` on the 24 timeline keys throws on a duplicate key. That case
  cannot arise, because the keys are proved to lie in 24 distinct hours, so no
  error path is modelled for it. The model relies on the dictionary
  enumerating its keys in insertion order.
- InMemoryMonitoring.CountWithStatus: the count is unbounded. `Count()` in the
  source is an `int` and throws `OverflowException` past 2^31-1 elements; a
  collection that large is not modelled. The same holds for the four
  counters, `GetStatistics`, `Totals` in `GetMessages`, and the per-hour
  timeline counts (`x.Count()` at lines 184 and 191 of
  `IMonitoringApi.InMemory.cs`), which are held in the unbounded
  `TimelineEntry.count`.
- Reflection, dependency injection and logging in the invoker.
  `ObjectMethodExecutor`, `ActivatorUtilities`, service scopes and the
  `ModelBinderFormattingException` log line are not modelled. Creating the
  consumer instance is assumed to succeed. Creating the binder and running it
  are one outcome.
- ConsumerInvoker.CallbackMessage: only the message handed to
  `ICallbackPublisher.PublishAsync` is modelled. Publishing it, and a
  publisher or serializer that throws, are not.
- ConsumerInvoker.ExecuteWithParameter: a `FormatException` is a single
  constructor. Subclasses, which `catch (FormatException)` also catches, are
  not told apart.
- The whole pipeline around the invoker is out of scope: dispatch, retries,
  the message state machine and deduplication.
- Two details of the code are modelled as written:
  - Timeline keys are `now` minus `i` hours, not the start of each hour.
  - The inner content is bound to the first parameter whenever at least one
    is declared, and the handler then receives that one model.

## Findings

| source | as written | input that shows it | evidently intended | confidence | as-written member | corrected member |
|---|---|---|---|---|---|---|
| src/DotNetCore.CAP.InMemoryStorage/IMonitoringApi.InMemory.cs:72 | `CurrentPage * PageSize` is an unchecked 32-bit `int` product. When it overflows, it wraps, possibly to a negative number, which `Skip` treats as 0. Line 119 repeats it on the received side. | `CurrentPage = 2147483647`, `PageSize = 2`, two stored messages: the product wraps to -2 and the first page comes back | the page at offset `CurrentPage * PageSize` of the filtered rows, which is empty here | not executed | MonitoringProofs.OffsetOverflowReturnsFirstPage | InMemoryMonitoring.GetMessages |

=== FILE: common.dfy ===
/** Small shared vocabulary: optional values, results with an error, and the
    32-bit signed integer the .NET code computes with. */
module Common {

  /** A value that may be absent (a C# `null` reference or `Nullable<T>`). */
  datatype Option<+T> = None | Some(value: T)

  /** Either a value or the exception that escaped the computation. */
  datatype Result<+T, +E> = Success(value: T) | Failure(error: E)

  /** `string.IsNullOrEmpty`: a missing string and the empty string are treated alike. */
  predicate IsNullOrEmpty(s: Option<string>)
  {
    s.None? || s.value == ""
  }

  const Int32Modulus: int := 0x1_0000_0000

  /** The C# `int` type. */
  newtype int32 = x: int | -0x8000_0000 <= x < 0x8000_0000

  /** The C# `long` type. */
  newtype int64 = x: int | -0x8000_0000_0000_0000 <= x < 0x8000_0000_0000_0000

  /** Unchecked C# `int` arithmetic: the mathematical result reduced into the
      32-bit two's-complement range. */
  function WrapInt32(x: int): (r: int32)
    ensures (r as int - x) % Int32Modulus == 0
    ensures -0x8000_0000 <= x < 0x8000_0000 ==> r as int == x
  {
    var m := (x + 0x8000_0000) % Int32Modulus;
    assert x == (x + 0x8000_0000) / Int32Modulus * Int32Modulus + m - 0x8000_0000;
    (m - 0x8000_0000) as int32
  }

  function Min(a: int, b: int): int
  {
    if a <= b then a else b
  }

  function Max(a: int, b: int): int
  {
    if a <= b then b else a
  }
}

=== FILE: invoker.dfy ===
/** The consumer-invocation step of the delivery pipeline
    (`DefaultConsumerInvoker`): unpack the delivered envelope, bind its inner
    content to the handler's first parameter, run the handler, and describe
    the reply to publish when the envelope names a callback topic.

    Reflection, dependency-injection scopes, logging and asynchrony are not
    modelled: the handler, the binder, the serializer and the packer are
    function values, so each of their outcomes is an input of the model. A
    synchronous and an asynchronous handler that produce the same outcome are
    indistinguishable here, as they are to the caller once awaited. */
module ConsumerInvoker {
  import opened Common
  import opened Messages

  /** A value passed to or returned by a handler: `null`, or an object shown
      by some opaque rendering of its state. */
  datatype Value = Null | Object(state: string)

  /** The exceptions the invoker tells apart. A `FormatException` is the one
      the parameter path swallows; `MethodBindException` is the invoker's own. */
  datatype Exn =
    | FormatException(message: string)
    | MethodBindException(message: string)
    | OtherException(typeName: string, message: string)

  /** What creating the binder for a parameter and running `BindModelAsync`
      produce: a bound model, an unsuccessful result, or an exception. */
  datatype Binding = Bound(model: Value) | NotBound | BinderThrew(error: Exn)

  /** What running the handler produces. */
  datatype Execution = Returned(value: Value) | Threw(error: Exn)

  /** The transport envelope (`CapMessageDto`): message id, inner content and
      optional reply topic. */
  datatype Envelope = Envelope(id: string, content: string, callbackName: Option<string>)

  /** A declared handler parameter. */
  datatype Parameter = Parameter(name: string, typeName: string)

  /** The subscribed method: its declared parameters and what it does when
      called with the given arguments. */
  datatype Consumer = Consumer(parameters: seq<Parameter>, handler: seq<Value> -> Execution)

  /** The collaborators resolved from the service provider. */
  datatype Services = Services(
    unpack: string -> Result<Envelope, Exn>,
    pack: Envelope -> string,
    bind: (Parameter, string) -> Binding,
    serialize: Value -> string)

  /** A message handed to the callback publisher (`CapPublishedMessage`). */
  datatype PublishedMessage = PublishedMessage(name: string, content: string, statusName: StatusName)

  /** A completed invocation: the handler's result and the reply, if any. At
      most one reply exists per invocation. */
  datatype Invocation = Invocation(result: Value, callback: Option<PublishedMessage>)

  /** The packer reads back every envelope it writes. */
  ghost predicate PackRoundTrips(services: Services)
  {
    forall e :: services.unpack(services.pack(e)) == Success(e)
  }

  /** The message of the `MethodBindException` raised when binding is unsuccessful. */
  function BindFailureMessage(p: Parameter, parameterString: string): string
  {
    "Parameters:" + p.name + " bind failed! ParameterString is: " + parameterString + " "
  }

  /** `ExecuteAsync`: the handler runs with no arguments and nothing is
      caught, so an exception of any type escapes. */
  function Execute(consumer: Consumer): (r: Result<Value, Exn>)
    ensures r.Success? <==> consumer.handler([]).Returned?
    ensures r.Success? ==> r.value == consumer.handler([]).value
    ensures r.Failure? ==> r.error == consumer.handler([]).error
  {
    match consumer.handler([])
    case Returned(v) => Success(v)
    case Threw(e) => Failure(e)
  }

  /** `ExecuteWithParameterAsync`: the parameter string is bound to the first
      declared parameter and the handler runs with the bound model alone. An
      unsuccessful binding raises a `MethodBindException`; a
      `FormatException` from the binder or from the handler is swallowed and
      yields `null`; every other exception escapes. */
  function ExecuteWithParameter(consumer: Consumer, services: Services, parameterString: string): (r: Result<Value, Exn>)
    requires |consumer.parameters| > 0
    ensures var b := services.bind(consumer.parameters[0], parameterString);
            b.NotBound? ==> r == Failure(MethodBindException(BindFailureMessage(consumer.parameters[0], parameterString)))
    ensures var b := services.bind(consumer.parameters[0], parameterString);
            b.BinderThrew? ==> r == if b.error.FormatException? then Success(Null) else Failure(b.error)
    ensures var b := services.bind(consumer.parameters[0], parameterString);
            b.Bound? && consumer.handler([b.model]).Returned? ==> r == Success(consumer.handler([b.model]).value)
    ensures var b := services.bind(consumer.parameters[0], parameterString);
            b.Bound? && consumer.handler([b.model]).Threw? ==>
              var e := consumer.handler([b.model]).error;
              r == if e.FormatException? then Success(Null) else Failure(e)
    ensures r.Failure? ==> !r.error.FormatException?
    ensures var b := services.bind(consumer.parameters[0], parameterString);
            r.Success? && r.value.Object? ==> b.Bound? && consumer.handler([b.model]) == Returned(r.value)
  {
    var p := consumer.parameters[0];
    match services.bind(p, parameterString)
    case NotBound => Failure(MethodBindException(BindFailureMessage(p, parameterString)))
    case BinderThrew(e) => if e.FormatException? then Success(Null) else Failure(e)
    case Bound(model) =>
      match consumer.handler([model])
      case Returned(v) => Success(v)
      case Threw(e) => if e.FormatException? then Success(Null) else Failure(e)
  }

  /** The handler outcome for a given inner content: the parameter path when
      the handler declares a parameter, the parameterless path otherwise. */
  function Run(consumer: Consumer, services: Services, parameterString: string): Result<Value, Exn>
  {
    if |consumer.parameters| > 0 then ExecuteWithParameter(consumer, services, parameterString)
    else Execute(consumer)
  }

  /** `SentCallbackMessage`: the reply to `messageId` on `topicName`, carrying
      the serialized result in a fresh envelope with no reply topic of its
      own, scheduled for sending. */
  function CallbackMessage(services: Services, messageId: string, topicName: string, body: Value): (m: PublishedMessage)
    ensures m.name == topicName && m.statusName == Scheduled
    ensures PackRoundTrips(services) ==>
              services.unpack(m.content) == Success(Envelope(messageId, services.serialize(body), None))
  {
    PublishedMessage(topicName, services.pack(Envelope(messageId, services.serialize(body), None)), Scheduled)
  }

  /** `InvokeAsync` on a delivered message's content. A failure to unpack and
      every exception the handler path lets through end the invocation
      without a reply; otherwise the reply exists exactly when the envelope
      names a non-empty callback topic. */
  function Invoke(consumer: Consumer, services: Services, delivered: string): (r: Result<Invocation, Exn>)
    ensures services.unpack(delivered).Failure? ==> r == Failure(services.unpack(delivered).error)
    ensures services.unpack(delivered).Success? ==>
              var env := services.unpack(delivered).value;
              var run := Run(consumer, services, env.content);
              && (r.Success? <==> run.Success?)
              && (r.Success? ==> r.value.result == run.value)
              && (r.Failure? ==> r.error == run.error)
    ensures r.Success? ==>
              var env := services.unpack(delivered).value;
              && (r.value.callback.Some? <==> !IsNullOrEmpty(env.callbackName))
              && (r.value.callback.Some? ==>
                    && r.value.callback.value.name == env.callbackName.value
                    && r.value.callback.value.statusName == Scheduled
                    && r.value.callback.value.content
                       == services.pack(Envelope(env.id, services.serialize(r.value.result), None)))
  {
    match services.unpack(delivered)
    case Failure(e) => Failure(e)
    case Success(env) =>
      match Run(consumer, services, env.content)
      case Failure(e) => Failure(e)
      case Success(result) =>
        var callback := if IsNullOrEmpty(env.callbackName) then None
                        else Some(CallbackMessage(services, env.id, env.callbackName.value, result));
        Success(Invocation(result, callback))
  }

  /** A handler that declares a parameter runs with the model bound from the
      envelope's inner content, and its return value is the invocation's
      result. */
  lemma BoundModelReachesHandler(consumer: Consumer, services: Services, delivered: string, env: Envelope, model: Value, v: Value)
    requires |consumer.parameters| > 0
    requires services.unpack(delivered) == Success(env)
    requires services.bind(consumer.parameters[0], env.content) == Bound(model)
    requires consumer.handler([model]) == Returned(v)
    ensures Invoke(consumer, services, delivered).Success?
    ensures Invoke(consumer, services, delivered).value.result == v
  {
  }

  /** A `FormatException`, whatever its message, is swallowed only on the
      parameter path: the same throwing handler fails the invocation when it
      declares no parameter and completes it with `null` (and a reply, when
      one is asked for) when it declares one. */
  lemma FormatExceptionOnlySwallowedWithParameter(handler: seq<Value> -> Execution, p: Parameter, msg: string,
                                                  services: Services, delivered: string, env: Envelope, model: Value)
    requires handler([]) == Threw(FormatException(msg)) && handler([model]) == Threw(FormatException(msg))
    requires services.unpack(delivered) == Success(env)
    requires services.bind(p, env.content) == Bound(model)
    ensures Invoke(Consumer([], handler), services, delivered) == Failure(FormatException(msg))
    ensures var r := Invoke(Consumer([p], handler), services, delivered);
            && r.Success? && r.value.result == Null
            && (r.value.callback.Some? <==> !IsNullOrEmpty(env.callbackName))
  {
  }

  /** Any exception other than a `FormatException` that the handler throws
      escapes the invocation unchanged, with or without a parameter, and no
      reply is built. */
  lemma HandlerExceptionEscapes(consumer: Consumer, services: Services, delivered: string, env: Envelope, e: Exn)
    requires services.unpack(delivered) == Success(env)
    requires !e.FormatException?
    requires |consumer.parameters| == 0 ==> consumer.handler([]) == Threw(e)
    requires |consumer.parameters| > 0 ==>
               var b := services.bind(consumer.parameters[0], env.content);
               b.Bound? && consumer.handler([b.model]) == Threw(e)
    ensures Invoke(consumer, services, delivered) == Failure(e)
  {
  }

  /** An unsuccessful binding fails the invocation with a `MethodBindException`
      naming the parameter and the content, and no reply is produced. */
  lemma BindFailureEscapes(consumer: Consumer, services: Services, delivered: string, env: Envelope)
    requires |consumer.parameters| > 0
    requires services.unpack(delivered) == Success(env)
    requires services.bind(consumer.parameters[0], env.content) == NotBound
    ensures Invoke(consumer, services, delivered)
            == Failure(MethodBindException(BindFailureMessage(consumer.parameters[0], env.content)))
  {
  }

  /** The reply correlates with the request: unpacking its content gives back
      the original message id and the serialized result. */
  lemma ReplyCorrelates(consumer: Consumer, services: Services, delivered: string)
    requires PackRoundTrips(services)
    requires Invoke(consumer, services, delivered).Success?
    requires Invoke(consumer, services, delivered).value.callback.Some?
    ensures var inv := Invoke(consumer, services, delivered).value;
            services.unpack(inv.callback.value.content)
              == Success(Envelope(services.unpack(delivered).value.id, services.serialize(inv.result), None))
  {
  }

  /** A reply never asks for a reply: whichever consumer the reply topic
      reaches, invoking it on the reply's content publishes nothing further,
      so a request/reply exchange ends after one round. */
  lemma ReplyProducesNoFurtherCallback(consumer: Consumer, replyConsumer: Consumer,
                                                          services: Services, delivered: string)
    requires PackRoundTrips(services)
    requires Invoke(consumer, services, delivered).Success?
    requires Invoke(consumer, services, delivered).value.callback.Some?
    ensures var reply := Invoke(consumer, services, delivered).value.callback.value;
            var r := Invoke(replyConsumer, services, reply.content);
            r.Success? ==> r.value.callback.None?
  {
  }

  /** A handler returning a result for a message that asks for a reply on
      `"order.reply"` produces exactly one reply, on that topic, scheduled,
      correlated with the original message id. */
  lemma OrderReply(services: Services, delivered: string)
    requires PackRoundTrips(services)
    requires services.unpack(delivered) == Success(Envelope("1001", "{\"orderId\":7}", Some("order.reply")))
    requires services.bind(Parameter("order", "Order"), "{\"orderId\":7}") == Bound(Object("Order 7"))
    ensures var consumer := Consumer([Parameter("order", "Order")],
                                     args => if args == [Object("Order 7")] then Returned(Object("accepted"))
                                             else Threw(OtherException("ArgumentException", "")));
            var r := Invoke(consumer, services, delivered);
            && r.Success?
            && r.value.result == Object("accepted")
            && r.value.callback.Some?
            && r.value.callback.value.name == "order.reply"
            && r.value.callback.value.statusName == Scheduled
            && services.unpack(r.value.callback.value.content)
               == Success(Envelope("1001", services.serialize(Object("accepted")), None))
  {
  }
}

=== FILE: linq.dfy ===
/** The few `System.Linq` operators the monitoring queries are built from,
    over finite sequences: `Where`, `Count`, `Select`, `Skip`, `Take` and the
    index search behind `FirstOrDefault`. All of them keep the enumeration
    order of their source. */
module Linq {
  import opened Common

  /** `Enumerable.Where`: the elements satisfying `p`, in source order. */
  function Where<T(!new)>(s: seq<T>, p: T -> bool): (r: seq<T>)
    ensures |r| <= |s|
    ensures forall i :: 0 <= i < |r| ==> p(r[i])
  {
    if |s| == 0 then []
    else
      var init := s[..|s| - 1];
      assert s == init + [s[|s| - 1]];
      if p(s[|s| - 1]) then Where(init, p) + [s[|s| - 1]] else Where(init, p)
  }

  /** `Where` keeps every occurrence of a satisfying value and drops every
      other value entirely. */
  lemma {:induction false} WhereMultiset<T(!new)>(s: seq<T>, p: T -> bool)
    ensures forall x {:trigger multiset(Where(s, p))[x]} ::
              multiset(Where(s, p))[x] == if p(x) then multiset(s)[x] else 0
    decreases |s|
  {
    if |s| > 0 {
      var init := s[..|s| - 1];
      var last := s[|s| - 1];
      assert s == init + [last];
      assert multiset(s) == multiset(init) + multiset{last};
      WhereMultiset(init, p);
    }
  }

  /** The positions of `s` whose element satisfies `p`. */
  ghost function Positions<T>(s: seq<T>, p: T -> bool): set<int>
  {
    set i | 0 <= i < |s| && p(s[i])
  }

  /** `Enumerable.Count(p)`: the number of positions whose element satisfies `p`. */
  function Count<T(!new)>(s: seq<T>, p: T -> bool): (n: nat)
    ensures n == |Where(s, p)|
  {
    if |s| == 0 then 0
    else Count(s[..|s| - 1], p) + if p(s[|s| - 1]) then 1 else 0
  }

  /** The count is the number of satisfying positions. */
  lemma {:induction false} CountPositions<T(!new)>(s: seq<T>, p: T -> bool)
    ensures Count(s, p) == |Positions(s, p)|
    decreases |s|
  {
    if |s| > 0 {
      CountPositions(s[..|s| - 1], p);
      PositionsSnoc(s, p);
    }
  }

  lemma PositionsSnoc<T>(s: seq<T>, p: T -> bool)
    requires |s| > 0
    ensures |Positions(s, p)| == |Positions(s[..|s| - 1], p)| + if p(s[|s| - 1]) then 1 else 0
  {
    var init := s[..|s| - 1];
    var last := if p(s[|s| - 1]) then {|s| - 1} else {};
    assert Positions(s, p) == Positions(init, p) + last;
    assert Positions(init, p) !! last;
  }

  /** `Enumerable.Select`: `f` applied to every element, in order. */
  function Select<T, U>(s: seq<T>, f: T -> U): (r: seq<U>)
    ensures |r| == |s|
    ensures forall i :: 0 <= i < |s| ==> r[i] == f(s[i])
  {
    seq(|s|, i requires 0 <= i < |s| => f(s[i]))
  }

  /** `Enumerable.Skip`: a count of zero or less skips nothing; the result is
      the suffix left after the first `n` elements. */
  function Skip<T>(s: seq<T>, n: int): (r: seq<T>)
    ensures |r| == |s| - Min(Max(n, 0), |s|)
    ensures forall i :: 0 <= i < |r| ==> r[i] == s[|s| - |r| + i]
  {
    var k := Min(Max(n, 0), |s|);
    seq(|s| - k, i requires 0 <= i < |s| - k => s[k + i])
  }

  /** `Enumerable.Take`: a count of zero or less yields nothing; the result is
      a prefix of the source. */
  function Take<T>(s: seq<T>, n: int): (r: seq<T>)
    ensures |r| == Min(Max(n, 0), |s|)
    ensures forall i :: 0 <= i < |r| ==> r[i] == s[i]
  {
    seq(Min(Max(n, 0), |s|), i requires 0 <= i < Min(Max(n, 0), |s|) => s[i])
  }

  /** The position `FirstOrDefault(p)` stops at: the first element
      satisfying `p`, or `|s|` when there is none. */
  function FirstIndex<T>(s: seq<T>, p: T -> bool): (k: nat)
    ensures k <= |s|
    ensures forall j :: 0 <= j < k ==> !p(s[j])
    ensures k < |s| ==> p(s[k])
  {
    if |s| == 0 then 0
    else if p(s[0]) then 0
    else 1 + FirstIndex(s[1..], p)
  }

  /** `Enumerable.FirstOrDefault(p)` on a sequence of references: `None` plays `null`. */
  function FirstOrDefault<T>(s: seq<T>, p: T -> bool): (r: Option<T>)
    ensures r.None? <==> forall i :: 0 <= i < |s| ==> !p(s[i])
    ensures r.Some? ==> exists k :: 0 <= k < |s| && s[k] == r.value && p(s[k])
                                   && forall j :: 0 <= j < k ==> !p(s[j])
  {
    var k := FirstIndex(s, p);
    if k < |s| then Some(s[k]) else None
  }

  /** Filtering distributes over concatenation: together with the one-element
      case this says `Where` keeps exactly the satisfying elements in order. */
  lemma {:induction false} WhereAppend<T(!new)>(a: seq<T>, b: seq<T>, p: T -> bool)
    ensures Where(a + b, p) == Where(a, p) + Where(b, p)
    decreases |b|
  {
    if |b| == 0 {
      assert a + b == a;
    } else {
      var b' := b[..|b| - 1];
      assert (a + b)[..|a + b| - 1] == a + b';
      assert (a + b)[|a + b| - 1] == b[|b| - 1];
      WhereAppend(a, b', p);
    }
  }

  /** Two filters that agree on every element of `s` select the same elements. */
  lemma {:induction false} WhereCongruent<T(!new)>(s: seq<T>, p: T -> bool, q: T -> bool)
    requires forall i :: 0 <= i < |s| ==> p(s[i]) == q(s[i])
    ensures Where(s, p) == Where(s, q)
    decreases |s|
  {
    if |s| > 0 {
      var init := s[..|s| - 1];
      assert forall i :: 0 <= i < |init| ==> init[i] == s[i];
      WhereCongruent(init, p, q);
    }
  }

  /** Applying `q` after `p` is filtering once by their conjunction. */
  lemma {:induction false} WhereWhere<T(!new)>(s: seq<T>, p: T -> bool, q: T -> bool, pq: T -> bool)
    requires forall x :: pq(x) == (p(x) && q(x))
    ensures Where(Where(s, p), q) == Where(s, pq)
    decreases |s|
  {
    if |s| > 0 {
      var init := s[..|s| - 1];
      var last := s[|s| - 1];
      WhereWhere(init, p, q, pq);
      if p(last) {
        WhereAppend(Where(init, p), [last], q);
      }
    }
  }

  /** A filter every element passes leaves the sequence unchanged. */
  lemma {:induction false} WhereAll<T(!new)>(s: seq<T>, p: T -> bool)
    requires forall i :: 0 <= i < |s| ==> p(s[i])
    ensures Where(s, p) == s
    decreases |s|
  {
    if |s| > 0 {
      var init := s[..|s| - 1];
      assert forall i :: 0 <= i < |init| ==> init[i] == s[i];
      WhereAll(init, p);
      assert init + [s[|s| - 1]] == s;
    }
  }

  /** Counting by a predicate that is the disjoint union of two others adds
      their counts. */
  lemma {:induction false} CountDisjointUnion<T(!new)>(s: seq<T>, p: T -> bool, q: T -> bool, r: T -> bool)
    requires forall x :: p(x) == (q(x) || r(x))
    requires forall x :: !(q(x) && r(x))
    ensures Count(s, p) == Count(s, q) + Count(s, r)
    decreases |s|
  {
    if |s| > 0 {
      CountDisjointUnion(s[..|s| - 1], p, q, r);
    }
  }

  /** A count by a predicate nothing satisfies is zero. */
  lemma {:induction false} CountNone<T(!new)>(s: seq<T>, p: T -> bool)
    requires forall x :: !p(x)
    ensures Count(s, p) == 0
    decreases |s|
  {
    if |s| > 0 {
      CountNone(s[..|s| - 1], p);
    }
  }

  /** The elements at the positions from `from` up to `to` that exist. */
  function Window<T>(s: seq<T>, from: int, to: int): (r: seq<T>)
    requires 0 <= from <= to
    ensures |r| == Min(to, |s|) - Min(from, |s|)
    ensures forall i :: 0 <= i < |r| ==> r[i] == s[from + i]
  {
    var lo := Min(from, |s|);
    seq(Min(to, |s|) - lo, i requires 0 <= i < Min(to, |s|) - lo => s[lo + i])
  }

  /** Adjacent windows join into one. */
  lemma WindowConcat<T>(s: seq<T>, lo: int, hi: int)
    requires 0 <= lo <= hi
    ensures Window(s, 0, lo) + Window(s, lo, hi) == Window(s, 0, hi)
  {
    var a := Window(s, 0, lo);
    var b := Window(s, lo, hi);
    var c := Window(s, 0, hi);
    assert |a + b| == |c|;
    forall i | 0 <= i < |c|
      ensures (a + b)[i] == c[i]
    {
      if i >= |a| {
        assert (a + b)[i] == b[i - |a|] == s[lo + (i - |a|)];
      }
    }
  }

  /** The sequences of `pages`, one after another (`SelectMany(p => p)`). */
  function Concat<T>(pages: seq<seq<T>>): seq<T>
  {
    if |pages| == 0 then [] else Concat(pages[..|pages| - 1]) + pages[|pages| - 1]
  }

  /** Windows of a fixed size laid end to end: consecutive windows of `rows`,
      starting at 0, concatenate to the window from 0 to where the last ends. */
  lemma {:induction false} ConcatWindows<T>(pages: seq<seq<T>>, rows: seq<T>, size: nat)
    requires forall c :: 0 <= c < |pages| ==> pages[c] == Window(rows, c * size, c * size + size)
    ensures Concat(pages) == Window(rows, 0, |pages| * size)
  {
    if |pages| > 0 {
      var k := |pages| - 1;
      ConcatWindows(pages[..k], rows, size);
      MulSucc(k, size);
      WindowConcat(rows, k * size, |pages| * size);
    }
  }

  lemma MulSucc(k: nat, size: nat)
    ensures k * size <= k * size + size == (k + 1) * size
  {
  }

  /** `Skip` then `Take` is the window between the two bounds; a negative
      offset skips nothing, so it reads the window at 0. */
  lemma SkipTakeSlice<T>(s: seq<T>, offset: int, size: int)
    requires 0 <= size
    ensures Take(Skip(s, offset), size) == Window(s, Max(offset, 0), Max(offset, 0) + size)
  {
  }
}

=== FILE: messages.dfy ===
/** The stored message records the in-memory storage keeps, their lifecycle
    status, and the clock they are stamped with. */
module Messages {
  import opened Common

  /** Lifecycle status of a published or received message. */
  datatype StatusName = Failed | Scheduled | Succeeded | Delayed | Queued

  /** `StatusName.ToString()`: the enum member's name. */
  function StatusText(s: StatusName): string
  {
    match s
    case Failed => "Failed"
    case Scheduled => "Scheduled"
    case Succeeded => "Succeeded"
    case Delayed => "Delayed"
    case Queued => "Queued"
  }

  /** Each status has its own name, so comparing names compares statuses. */
  lemma StatusTextInjective(s: StatusName, t: StatusName)
    ensures StatusText(s) == StatusText(t) <==> s == t
  {
  }

  /** The direction a query is about: published (outbound) or received (inbound). */
  datatype MessageType = Publish | Subscribe

  /** A point in time, in whole seconds on the storage clock. */
  type Instant = int

  const SecondsPerHour: int := 3600

  /** The clock hour containing `t`; two instants print the same
      `"yyyy-MM-dd-HH"` text exactly when they share this hour. */
  function HourBucket(t: Instant): (h: int)
    ensures h * 3600 <= t < h * 3600 + 3600
  {
    t / SecondsPerHour
  }

  /** `t.AddHours(-i)`. */
  function HoursBefore(t: Instant, i: int): Instant
  {
    t - i * SecondsPerHour
  }

  /** Going back `i` whole hours moves to the `i`-th earlier bucket. */
  lemma HourBucketShift(t: Instant, i: int)
    ensures HourBucket(HoursBefore(t, i)) == HourBucket(t) - i
  {
  }

  /** A message as the in-memory storage holds it (`MemoryMessage`). `group`
      is meaningful for received messages only. */
  datatype StoredMessage = StoredMessage(
    dbId: string,
    name: string,
    group: string,
    content: string,
    added: Instant,
    expiresAt: Option<Instant>,
    retries: int,
    status: StatusName)

  /** A snapshot of the two in-memory collections, each in the order its
      dictionary enumerates its values. */
  datatype Storage = Storage(published: seq<StoredMessage>, received: seq<StoredMessage>)

  /** The collection a query of the given direction reads. */
  function MessagesOf(store: Storage, t: MessageType): seq<StoredMessage>
  {
    if t == Publish then store.published else store.received
  }
}

=== FILE: monitoring.dfy ===
/** The in-memory monitoring API: read-only queries over a snapshot of the
    published and received collections. Nothing here changes the store. */
module InMemoryMonitoring {
  import opened Common
  import opened Linq
  import opened Text
  import opened Messages

  // ---------------------------------------------------------------------
  // Point lookup
  // ---------------------------------------------------------------------

  function HasDbId(id: string): StoredMessage -> bool
  {
    (m: StoredMessage) => m.dbId == id
  }

  /** `r` is what `FirstOrDefault(x => x.DbId == id)` returns on `ms`: nothing
      when no message carries `id`, otherwise the first one that does. It
      restates `FirstOrDefault`'s contract for this predicate, as the
      reference the lookups are stated against. */
  ghost predicate IsFirstWithDbId(ms: seq<StoredMessage>, id: string, r: Option<StoredMessage>)
  {
    && (r.None? <==> forall i :: 0 <= i < |ms| ==> ms[i].dbId != id)
    && (r.Some? ==> exists k :: 0 <= k < |ms| && ms[k] == r.value && ms[k].dbId == id
                               && forall j :: 0 <= j < k ==> ms[j].dbId != id)
  }

  /** `GetPublishedMessageAsync`: absence is `None`, never an error. */
  function GetPublishedMessage(store: Storage, id: int64): (r: Option<StoredMessage>)
    ensures IsFirstWithDbId(store.published, InvariantString(id as int), r)
  {
    FirstOrDefault(store.published, HasDbId(InvariantString(id as int)))
  }

  /** `GetReceivedMessageAsync`: absence is `None`, never an error. */
  function GetReceivedMessage(store: Storage, id: int64): (r: Option<StoredMessage>)
    ensures IsFirstWithDbId(store.received, InvariantString(id as int), r)
  {
    FirstOrDefault(store.received, HasDbId(InvariantString(id as int)))
  }

  // ---------------------------------------------------------------------
  // Counters and statistics
  // ---------------------------------------------------------------------

  function HasStatus(s: StatusName): StoredMessage -> bool
  {
    (m: StoredMessage) => m.status == s
  }

  /** The positions of `ms` holding a message in status `s`. */
  ghost function PositionsWithStatus(ms: seq<StoredMessage>, s: StatusName): set<int>
  {
    set k | 0 <= k < |ms| && ms[k].status == s
  }

  /** The positions of `ms` holding a message in status `s` added during hour `h`. */
  ghost function PositionsWithStatusInHour(ms: seq<StoredMessage>, s: StatusName, h: int): set<int>
  {
    set k | 0 <= k < |ms| && ms[k].status == s && HourBucket(ms[k].added) == h
  }

  /** The number of messages of `ms` in status `s`. */
  function CountWithStatus(ms: seq<StoredMessage>, s: StatusName): (n: nat)
    ensures n == |PositionsWithStatus(ms, s)|
  {
    var n := Count(ms, HasStatus(s));
    CountPositions(ms, HasStatus(s));
    assert Positions(ms, HasStatus(s)) == PositionsWithStatus(ms, s);
    n
  }

  function PublishedFailedCount(store: Storage): (n: nat)
    ensures n == |PositionsWithStatus(store.published, Failed)|
  {
    CountWithStatus(store.published, Failed)
  }

  function PublishedSucceededCount(store: Storage): (n: nat)
    ensures n == |PositionsWithStatus(store.published, Succeeded)|
  {
    CountWithStatus(store.published, Succeeded)
  }

  function ReceivedFailedCount(store: Storage): (n: nat)
    ensures n == |PositionsWithStatus(store.received, Failed)|
  {
    CountWithStatus(store.received, Failed)
  }

  function ReceivedSucceededCount(store: Storage): (n: nat)
    ensures n == |PositionsWithStatus(store.received, Succeeded)|
  {
    CountWithStatus(store.received, Succeeded)
  }

  /** `StatisticsDto` as the in-memory API fills it. */
  datatype Statistics = Statistics(
    publishedSucceeded: nat,
    receivedSucceeded: nat,
    publishedFailed: nat,
    receivedFailed: nat,
    publishedDelayed: nat)

  /** `GetStatisticsAsync`: every field is a per-direction, per-status count,
      and agrees with the matching single counter. */
  function GetStatistics(store: Storage): (r: Statistics)
    ensures r.publishedSucceeded == PublishedSucceededCount(store)
    ensures r.receivedSucceeded == ReceivedSucceededCount(store)
    ensures r.publishedFailed == PublishedFailedCount(store)
    ensures r.receivedFailed == ReceivedFailedCount(store)
    ensures r.publishedDelayed == |PositionsWithStatus(store.published, Delayed)|
  {
    Statistics(
      CountWithStatus(store.published, Succeeded),
      CountWithStatus(store.received, Succeeded),
      CountWithStatus(store.published, Failed),
      CountWithStatus(store.received, Failed),
      CountWithStatus(store.published, Delayed))
  }

  // ---------------------------------------------------------------------
  // Filtered, paged listing
  // ---------------------------------------------------------------------

  /** `MessageQueryDto`. A filter is active when its text is neither null nor empty. */
  datatype MessageQuery = MessageQuery(
    messageType: MessageType,
    group: Option<string>,
    name: Option<string>,
    content: Option<string>,
    statusName: Option<string>,
    currentPage: int32,
    pageSize: int32)

  /** `MessageDto` as the listing builds it. */
  datatype MessageView = MessageView(
    id: string,
    group: Option<string>,
    version: string,
    content: string,
    added: Instant,
    expiresAt: Option<Instant>,
    name: string,
    retries: int,
    statusName: string)

  /** `PagedQueryResult<MessageDto>`. */
  datatype PagedResult = PagedResult(items: seq<MessageView>, pageIndex: int32, pageSize: int32, totals: nat)

  const UnknownVersion: string := "N/A"

  /** The projection of a stored message into a listing row; the group is
      only copied on the received side. */
  function View(t: MessageType, m: StoredMessage): MessageView
  {
    MessageView(
      m.dbId,
      if t == Publish then None else Some(m.group),
      UnknownVersion,
      m.content,
      m.added,
      m.expiresAt,
      m.name,
      m.retries,
      StatusText(m.status))
  }

  function ToView(t: MessageType): StoredMessage -> MessageView
  {
    (m: StoredMessage) => View(t, m)
  }

  /** What a message must satisfy to be listed: every active filter holds. The
      group filter exists on the received side only. */
  predicate Matches(q: MessageQuery, fold: CaseFold, m: StoredMessage)
  {
    && (IsNullOrEmpty(q.statusName) || EqualsIgnoreCase(StatusText(m.status), q.statusName.value, fold))
    && (IsNullOrEmpty(q.name) || EqualsIgnoreCase(m.name, q.name.value, fold))
    && (q.messageType == Publish || IsNullOrEmpty(q.group) || EqualsIgnoreCase(m.group, q.group.value, fold))
    && (IsNullOrEmpty(q.content) || Contains(m.content, q.content.value))
  }

  function MatchesFn(q: MessageQuery, fold: CaseFold): StoredMessage -> bool
  {
    (m: StoredMessage) => Matches(q, fold, m)
  }

  /** The same conditions, read off a listing row. */
  predicate ViewMatches(q: MessageQuery, fold: CaseFold, v: MessageView)
  {
    && (IsNullOrEmpty(q.statusName) || EqualsIgnoreCase(v.statusName, q.statusName.value, fold))
    && (IsNullOrEmpty(q.name) || EqualsIgnoreCase(v.name, q.name.value, fold))
    && (q.messageType == Publish || IsNullOrEmpty(q.group)
        || (v.group.Some? && EqualsIgnoreCase(v.group.value, q.group.value, fold)))
    && (IsNullOrEmpty(q.content) || Contains(v.content, q.content.value))
  }

  /** The messages of the queried direction that pass every active filter, in
      store order. */
  function Matching(store: Storage, q: MessageQuery, fold: CaseFold): seq<StoredMessage>
  {
    Where(MessagesOf(store, q.messageType), MatchesFn(q, fold))
  }

  function StatusIs(text: string, fold: CaseFold): StoredMessage -> bool
  {
    (m: StoredMessage) => EqualsIgnoreCase(StatusText(m.status), text, fold)
  }

  function NameIs(text: string, fold: CaseFold): StoredMessage -> bool
  {
    (m: StoredMessage) => EqualsIgnoreCase(m.name, text, fold)
  }

  function GroupIs(text: string, fold: CaseFold): StoredMessage -> bool
  {
    (m: StoredMessage) => EqualsIgnoreCase(m.group, text, fold)
  }

  function ContentHas(text: string): StoredMessage -> bool
  {
    (m: StoredMessage) => Contains(m.content, text)
  }

  /** The chain of `Where` calls the query builds, one per active filter, in
      the order status, name, group (received side only), content; it selects
      exactly the messages passing every active filter. */
  function FilterChain(ms: seq<StoredMessage>, q: MessageQuery, fold: CaseFold): (r: seq<StoredMessage>)
    ensures r == Where(ms, MatchesFn(q, fold))
  {
    var e1 := if IsNullOrEmpty(q.statusName) then ms else Where(ms, StatusIs(q.statusName.value, fold));
    var e2 := if IsNullOrEmpty(q.name) then e1 else Where(e1, NameIs(q.name.value, fold));
    var e3 := if q.messageType == Publish || IsNullOrEmpty(q.group) then e2 else Where(e2, GroupIs(q.group.value, fold));
    var e4 := if IsNullOrEmpty(q.content) then e3 else Where(e3, ContentHas(q.content.value));
    FilterChainProof(ms, q, fold, e1, e2, e3, e4);
    e4
  }

  /** The four filtering stages, each as the conjunction of the conditions
      applied so far. */
  lemma FilterChainProof(ms: seq<StoredMessage>, q: MessageQuery, fold: CaseFold,
                         e1: seq<StoredMessage>, e2: seq<StoredMessage>,
                         e3: seq<StoredMessage>, e4: seq<StoredMessage>)
    requires e1 == if IsNullOrEmpty(q.statusName) then ms else Where(ms, StatusIs(q.statusName.value, fold))
    requires e2 == if IsNullOrEmpty(q.name) then e1 else Where(e1, NameIs(q.name.value, fold))
    requires e3 == if q.messageType == Publish || IsNullOrEmpty(q.group) then e2 else Where(e2, GroupIs(q.group.value, fold))
    requires e4 == if IsNullOrEmpty(q.content) then e3 else Where(e3, ContentHas(q.content.value))
    ensures e4 == Where(ms, MatchesFn(q, fold))
  {
    var p1 := (m: StoredMessage) => IsNullOrEmpty(q.statusName) || EqualsIgnoreCase(StatusText(m.status), q.statusName.value, fold);
    var p2 := (m: StoredMessage) => p1(m) && (IsNullOrEmpty(q.name) || EqualsIgnoreCase(m.name, q.name.value, fold));
    var p3 := (m: StoredMessage) => p2(m) && (q.messageType == Publish || IsNullOrEmpty(q.group) || EqualsIgnoreCase(m.group, q.group.value, fold));
    var p4 := (m: StoredMessage) => p3(m) && (IsNullOrEmpty(q.content) || Contains(m.content, q.content.value));
    if IsNullOrEmpty(q.statusName) {
      WhereAll(ms, p1);
    } else {
      WhereCongruent(ms, StatusIs(q.statusName.value, fold), p1);
    }
    assert e1 == Where(ms, p1);
    if IsNullOrEmpty(q.name) {
      WhereCongruent(ms, p1, p2);
    } else {
      WhereWhere(ms, p1, NameIs(q.name.value, fold), p2);
    }
    assert e2 == Where(ms, p2);
    if q.messageType == Publish || IsNullOrEmpty(q.group) {
      WhereCongruent(ms, p2, p3);
    } else {
      WhereWhere(ms, p2, GroupIs(q.group.value, fold), p3);
    }
    assert e3 == Where(ms, p3);
    if IsNullOrEmpty(q.content) {
      WhereCongruent(ms, p3, p4);
    } else {
      WhereWhere(ms, p3, ContentHas(q.content.value), p4);
    }
    WhereCongruent(ms, p4, MatchesFn(q, fold));
  }

  /** Every row of the filtered listing, before paging, in store order. */
  function Rows(store: Storage, q: MessageQuery, fold: CaseFold): seq<MessageView>
  {
    Select(Matching(store, q, fold), ToView(q.messageType))
  }

  /** The listing for a given skip offset: `Skip(offset).Take(PageSize)` over
      the projected rows, with the total taken over all of them. */
  function Page(store: Storage, q: MessageQuery, fold: CaseFold, offset: int): (r: PagedResult)
    ensures r.pageIndex == q.currentPage && r.pageSize == q.pageSize
    ensures r.totals == |Matching(store, q, fold)| == |Rows(store, q, fold)|
    ensures forall i :: 0 <= i < |r.items| ==> ViewMatches(q, fold, r.items[i])
    ensures 0 <= q.pageSize ==>
              r.items == Window(Rows(store, q, fold), Max(offset, 0), Max(offset, 0) + q.pageSize as int)
    ensures q.pageSize < 0 ==> r.items == []
  {
    var matching := FilterChain(MessagesOf(store, q.messageType), q, fold);
    var all := Select(matching, ToView(q.messageType));
    var items := Take(Skip(all, offset), q.pageSize as int);
    PageItems(q, fold, matching, offset, items);
    PagedResult(items, q.currentPage, q.pageSize, |all|)
  }

  /** A listed row satisfies, on its own fields, every filter its message passed. */
  lemma ViewOfMatch(q: MessageQuery, fold: CaseFold, m: StoredMessage)
    requires Matches(q, fold, m)
    ensures ViewMatches(q, fold, View(q.messageType, m))
  {
  }

  /** The rows of one page: a contiguous run of the projected matching
      messages, each passing the filters. */
  lemma PageItems(q: MessageQuery, fold: CaseFold, matching: seq<StoredMessage>, offset: int, items: seq<MessageView>)
    requires forall j :: 0 <= j < |matching| ==> MatchesFn(q, fold)(matching[j])
    requires items == Take(Skip(Select(matching, ToView(q.messageType)), offset), q.pageSize as int)
    ensures forall i :: 0 <= i < |items| ==> ViewMatches(q, fold, items[i])
    ensures 0 <= q.pageSize ==>
              items == Window(Select(matching, ToView(q.messageType)), Max(offset, 0), Max(offset, 0) + q.pageSize as int)
    ensures q.pageSize < 0 ==> items == []
  {
    if 0 <= q.pageSize {
      SkipTakeSlice(Select(matching, ToView(q.messageType)), offset, q.pageSize as int);
    }
  }

  /** The number of rows before the requested page, `CurrentPage * PageSize`,
      as a mathematical product. */
  function PageOffset(q: MessageQuery): (offset: int)
    ensures 0 <= q.currentPage && 0 <= q.pageSize ==> 0 <= offset
  {
    q.currentPage as int * q.pageSize as int
  }

  /** `GetMessagesAsync` with the skip offset `CurrentPage * PageSize`
      computed without overflow (see `GetMessagesAsWritten` for the 32-bit
      product the source computes). */
  function GetMessages(store: Storage, q: MessageQuery, fold: CaseFold): (r: PagedResult)
    ensures r.pageIndex == q.currentPage && r.pageSize == q.pageSize
    ensures r.totals == Count(MessagesOf(store, q.messageType), MatchesFn(q, fold))
    ensures forall i :: 0 <= i < |r.items| ==> ViewMatches(q, fold, r.items[i])
    ensures 0 <= q.pageSize ==>
              r.items == Window(Rows(store, q, fold), Max(PageOffset(q), 0), Max(PageOffset(q), 0) + q.pageSize as int)
    ensures q.pageSize < 0 ==> r.items == []
  {
    Page(store, q, fold, PageOffset(q))
  }

  /** `GetMessagesAsync` as written: `CurrentPage * PageSize` is an unchecked
      `int` product, and `Skip` treats a negative count as zero. */
  function GetMessagesAsWritten(store: Storage, q: MessageQuery, fold: CaseFold): (r: PagedResult)
    ensures r.pageIndex == q.currentPage && r.pageSize == q.pageSize
    ensures r.totals == Count(MessagesOf(store, q.messageType), MatchesFn(q, fold))
    ensures forall i :: 0 <= i < |r.items| ==> ViewMatches(q, fold, r.items[i])
    ensures 0 <= q.pageSize ==>
              var skip := Max(WrapInt32(PageOffset(q)) as int, 0);
              r.items == Window(Rows(store, q, fold), skip, skip + q.pageSize as int)
    ensures q.pageSize < 0 ==> r.items == []
  {
    Page(store, q, fold, WrapInt32(PageOffset(q)) as int)
  }

  // ---------------------------------------------------------------------
  // Hourly timeline
  // ---------------------------------------------------------------------

  const TimelineLength: nat := 24

  /** One entry of the returned dictionary: its key and the count under it. */
  datatype TimelineEntry = TimelineEntry(at: Instant, count: nat)

  function InHour(h: int): StoredMessage -> bool
  {
    (m: StoredMessage) => HourBucket(m.added) == h
  }

  /** The ordinal status comparison the timeline uses. */
  function StatusTextIs(statusName: string): StoredMessage -> bool
  {
    (m: StoredMessage) => StatusText(m.status) == statusName
  }

  /** Messages in the given status (by name) added during hour `h`. */
  function StatusInHour(statusName: string, h: int): StoredMessage -> bool
  {
    (m: StoredMessage) => StatusText(m.status) == statusName && HourBucket(m.added) == h
  }

  /** `GroupBy(x => x.Added.ToString("yyyy-MM-dd-HH")).ToDictionary(g => g.Key, g => g.Count())`:
      one key per hour some message was added in, mapped to how many were. */
  function GroupByHour(ms: seq<StoredMessage>): (g: map<int, nat>)
    ensures forall h :: h in g <==> exists i :: 0 <= i < |ms| && HourBucket(ms[i].added) == h
    ensures forall h {:trigger Count(ms, InHour(h))} :: (if h in g then g[h] else 0) == Count(ms, InHour(h))
  {
    if |ms| == 0 then map[]
    else
      var g := GroupByHour(ms[..|ms| - 1]);
      var h := HourBucket(ms[|ms| - 1].added);
      var g' := g[h := (if h in g then g[h] else 0) + 1];
      GroupByHourStep(ms, g, g');
      g'
  }

  /** Adding the last message's hour to the grouping of the others. */
  lemma GroupByHourStep(ms: seq<StoredMessage>, g: map<int, nat>, g': map<int, nat>)
    requires |ms| > 0
    requires var init := ms[..|ms| - 1];
             forall h :: h in g <==> exists i :: 0 <= i < |init| && HourBucket(init[i].added) == h
    requires forall h {:trigger Count(ms[..|ms| - 1], InHour(h))} :: (if h in g then g[h] else 0) == Count(ms[..|ms| - 1], InHour(h))
    requires var h := HourBucket(ms[|ms| - 1].added); g' == g[h := (if h in g then g[h] else 0) + 1]
    ensures forall h :: h in g' <==> exists i :: 0 <= i < |ms| && HourBucket(ms[i].added) == h
    ensures forall h {:trigger Count(ms, InHour(h))} :: (if h in g' then g'[h] else 0) == Count(ms, InHour(h))
  {
    var last := HourBucket(ms[|ms| - 1].added);
    forall h
      ensures h in g' <==> exists i :: 0 <= i < |ms| && HourBucket(ms[i].added) == h
    {
      var init := ms[..|ms| - 1];
      if h in g' && h != last {
        var i :| 0 <= i < |init| && HourBucket(init[i].added) == h;
        assert ms[i] == init[i];
      }
      if h != last && (exists i :: 0 <= i < |ms| && HourBucket(ms[i].added) == h) {
        var i :| 0 <= i < |ms| && HourBucket(ms[i].added) == h;
        assert i < |init| && init[i] == ms[i];
      }
    }
    forall h
      ensures (if h in g' then g'[h] else 0) == Count(ms, InHour(h))
    {
      assert Count(ms, InHour(h)) == Count(ms[..|ms| - 1], InHour(h)) + if InHour(h)(ms[|ms| - 1]) then 1 else 0;
    }
  }

  /** The zero-filling loop: every key missing from `g` is added with 0. */
  function ZeroFill(g: map<int, nat>, keys: seq<int>): (r: map<int, nat>)
    ensures forall i :: 0 <= i < |keys| ==> keys[i] in r
    ensures forall h :: h in g ==> h in r
    ensures forall h :: h in r ==> h in g || h in keys
    ensures forall h :: h in r ==> r[h] == if h in g then g[h] else 0
  {
    if |keys| == 0 then g
    else
      var r := ZeroFill(g, keys[..|keys| - 1]);
      var k := keys[|keys| - 1];
      if k in r then r else r[k := 0]
  }

  /** The 24 keys: `now`, then one hour earlier each time. */
  function TimelineDates(now: Instant): seq<Instant>
  {
    seq(TimelineLength, i requires 0 <= i < TimelineLength => HoursBefore(now, i))
  }

  /** `GetHourlyTimelineStats`: exactly 24 entries keyed `now - i` hours, in 24
      distinct clock hours, each counting the messages of that direction whose
      status name is `statusName` and that were added in that key's hour;
      hours without such messages count 0. */
  function HourlyTimelineStats(store: Storage, t: MessageType, statusName: string, now: Instant): (r: seq<TimelineEntry>)
    ensures |r| == TimelineLength
    ensures forall i :: 0 <= i < |r| ==> r[i].at == HoursBefore(now, i)
    ensures forall i :: 0 <= i < |r| ==> HourBucket(r[i].at) == HourBucket(now) - i
    ensures forall i, j :: 0 <= i < j < |r| ==> HourBucket(r[i].at) != HourBucket(r[j].at)
    ensures forall i :: 0 <= i < |r| ==>
              r[i].count == Count(MessagesOf(store, t), StatusInHour(statusName, HourBucket(r[i].at)))
  {
    var ms := MessagesOf(store, t);
    var dates := TimelineDates(now);
    var keys := Select(dates, HourBucket);
    var values := ZeroFill(GroupByHour(Where(ms, StatusTextIs(statusName))), keys);
    var r := seq(TimelineLength, i requires 0 <= i < TimelineLength => TimelineEntry(dates[i], values[keys[i]]));
    forall i | 0 <= i < TimelineLength
      ensures HourBucket(r[i].at) == HourBucket(now) - i
      ensures r[i].count == Count(ms, StatusInHour(statusName, HourBucket(r[i].at)))
    {
      TimelineEntryCount(ms, statusName, now, i, keys[i], values);
    }
    r
  }

  /** One entry of the timeline: its key lies `i` hours back and its value is
      the count of that hour, zero when the grouping has no such hour. */
  lemma TimelineEntryCount(ms: seq<StoredMessage>, statusName: string, now: Instant, i: int, key: int,
                           values: map<int, nat>)
    requires key == HourBucket(HoursBefore(now, i))
    requires key in values
    requires var g := GroupByHour(Where(ms, StatusTextIs(statusName)));
             values[key] == if key in g then g[key] else 0
    ensures key == HourBucket(now) - i
    ensures values[key] == Count(ms, StatusInHour(statusName, key))
  {
    HourBucketShift(now, i);
    var matching := Where(ms, StatusTextIs(statusName));
    assert values[key] == Count(matching, InHour(key));
    WhereWhere(ms, StatusTextIs(statusName), InHour(key), StatusInHour(statusName, key));
  }

  /** `HourlyFailedJobs`: the timeline of messages in status `Failed`. */
  function HourlyFailedJobs(store: Storage, t: MessageType, now: Instant): (r: seq<TimelineEntry>)
    ensures |r| == TimelineLength
    ensures forall i :: 0 <= i < |r| ==> r[i].at == HoursBefore(now, i)
    ensures forall i :: 0 <= i < |r| ==>
              r[i].count == |PositionsWithStatusInHour(MessagesOf(store, t), Failed, HourBucket(now) - i)|
  {
    TimelineByStatus(store, t, Failed, now);
    HourlyTimelineStats(store, t, StatusText(Failed), now)
  }

  /** `HourlySucceededJobs`: the timeline of messages in status `Succeeded`. */
  function HourlySucceededJobs(store: Storage, t: MessageType, now: Instant): (r: seq<TimelineEntry>)
    ensures |r| == TimelineLength
    ensures forall i :: 0 <= i < |r| ==> r[i].at == HoursBefore(now, i)
    ensures forall i :: 0 <= i < |r| ==>
              r[i].count == |PositionsWithStatusInHour(MessagesOf(store, t), Succeeded, HourBucket(now) - i)|
  {
    TimelineByStatus(store, t, Succeeded, now);
    HourlyTimelineStats(store, t, StatusText(Succeeded), now)
  }

  /** The timeline for a status's name counts, hour by hour, the messages
      in that status. */
  lemma TimelineByStatus(store: Storage, t: MessageType, s: StatusName, now: Instant)
    ensures var r := HourlyTimelineStats(store, t, StatusText(s), now);
            forall i :: 0 <= i < |r| ==>
              r[i].count == |PositionsWithStatusInHour(MessagesOf(store, t), s, HourBucket(now) - i)|
  {
    var r := HourlyTimelineStats(store, t, StatusText(s), now);
    EntriesByStatus(MessagesOf(store, t), s, now, r);
  }

  /** Entries counted by a status's name count the messages in that status. */
  lemma EntriesByStatus(ms: seq<StoredMessage>, s: StatusName, now: Instant, r: seq<TimelineEntry>)
    requires forall i :: 0 <= i < |r| ==> HourBucket(r[i].at) == HourBucket(now) - i
    requires forall i :: 0 <= i < |r| ==> r[i].count == Count(ms, StatusInHour(StatusText(s), HourBucket(r[i].at)))
    ensures forall i :: 0 <= i < |r| ==> r[i].count == |PositionsWithStatusInHour(ms, s, HourBucket(now) - i)|
  {
    forall i | 0 <= i < |r|
      ensures r[i].count == |PositionsWithStatusInHour(ms, s, HourBucket(now) - i)|
    {
      CountByStatusName(ms, s, HourBucket(r[i].at));
    }
  }

  /** Comparing status names is comparing statuses, so counting by a
      status's name counts the messages in that status. */
  lemma CountByStatusName(ms: seq<StoredMessage>, s: StatusName, h: int)
    ensures Count(ms, StatusInHour(StatusText(s), h)) == |PositionsWithStatusInHour(ms, s, h)|
  {
    var p := StatusInHour(StatusText(s), h);
    forall k | 0 <= k < |ms|
      ensures p(ms[k]) == (ms[k].status == s && HourBucket(ms[k].added) == h)
    {
      StatusTextInjective(ms[k].status, s);
    }
    CountPositions(ms, p);
    assert Positions(ms, p) == PositionsWithStatusInHour(ms, s, h);
  }
}

=== FILE: monitoring_proofs.dfy ===
/** Properties that relate several monitoring queries, or one query to a
    reference description of what it should return. */
module MonitoringProofs {
  import opened Common
  import opened Linq
  import opened Text
  import opened Messages
  import opened InMemoryMonitoring

  // ---------------------------------------------------------------------
  // Point lookup
  // ---------------------------------------------------------------------

  /** Lookups by two different ids never return the same stored record: the
      id's decimal text identifies the id. */
  lemma LookupIdentifiesId(store: Storage, a: int64, b: int64, m: StoredMessage)
    requires GetPublishedMessage(store, a) == Some(m) || GetReceivedMessage(store, a) == Some(m)
    requires GetPublishedMessage(store, b) == Some(m) || GetReceivedMessage(store, b) == Some(m)
    ensures a == b
  {
    assert m.dbId == InvariantString(a as int);
    assert m.dbId == InvariantString(b as int);
    InvariantStringInjective(a as int, b as int);
  }

  // ---------------------------------------------------------------------
  // Counters
  // ---------------------------------------------------------------------

  /** Every message is in exactly one status: the five per-status counts of a
      direction add up to its size. */
  lemma {:induction false} StatusCountsPartition(ms: seq<StoredMessage>)
    ensures CountWithStatus(ms, Failed) + CountWithStatus(ms, Scheduled) + CountWithStatus(ms, Succeeded)
            + CountWithStatus(ms, Delayed) + CountWithStatus(ms, Queued) == |ms|
  {
    if |ms| > 0 {
      var init := ms[..|ms| - 1];
      StatusCountsPartition(init);
      CountWithStatusSnoc(ms, Failed);
      CountWithStatusSnoc(ms, Scheduled);
      CountWithStatusSnoc(ms, Succeeded);
      CountWithStatusSnoc(ms, Delayed);
      CountWithStatusSnoc(ms, Queued);
    }
  }

  /** Counting one status over a sequence extends the count over all but its
      last message by that message. */
  lemma CountWithStatusSnoc(ms: seq<StoredMessage>, s: StatusName)
    requires |ms| > 0
    ensures CountWithStatus(ms, s)
         == CountWithStatus(ms[..|ms| - 1], s) + if ms[|ms| - 1].status == s then 1 else 0
  {
  }

  // ---------------------------------------------------------------------
  // Listing
  // ---------------------------------------------------------------------

  /** Row `v` is the projection of message `m` for a listing of direction
      `t`: the fields are copied, the id is the `DbId`, the version is
      `"N/A"`, and the group is copied on the received side only. This is a
      field-by-field restatement of `View`, kept as the reference the
      listing lemmas are stated against. */
  predicate KeepsFields(t: MessageType, v: MessageView, m: StoredMessage)
  {
    && v.id == m.dbId && v.name == m.name && v.content == m.content
    && v.added == m.added && v.expiresAt == m.expiresAt && v.retries == m.retries
    && v.statusName == StatusText(m.status) && v.version == "N/A"
    && v.group == (if t == Publish then None else Some(m.group))
  }

  /** Every listing row, of the listing as written and of the corrected one,
      whatever the page and page size, comes from a stored message of the
      queried direction that passes every active filter, and keeps that
      message's fields. */
  lemma ListedRowsKeepFields(store: Storage, q: MessageQuery, fold: CaseFold, i: int)
    ensures var items := GetMessages(store, q, fold).items;
            0 <= i < |items| ==>
              exists m :: m in MessagesOf(store, q.messageType) && Matches(q, fold, m)
                          && KeepsFields(q.messageType, items[i], m)
    ensures var items := GetMessagesAsWritten(store, q, fold).items;
            0 <= i < |items| ==>
              exists m :: m in MessagesOf(store, q.messageType) && Matches(q, fold, m)
                          && KeepsFields(q.messageType, items[i], m)
  {
    PageRowKeepsFields(store, q, fold, PageOffset(q), i);
    PageRowKeepsFields(store, q, fold, WrapInt32(PageOffset(q)) as int, i);
  }

  /** The same for the page at any skip offset. */
  lemma PageRowKeepsFields(store: Storage, q: MessageQuery, fold: CaseFold, offset: int, i: int)
    ensures var items := Page(store, q, fold, offset).items;
            0 <= i < |items| ==>
              exists m :: m in MessagesOf(store, q.messageType) && Matches(q, fold, m)
                          && KeepsFields(q.messageType, items[i], m)
  {
    var items := Page(store, q, fold, offset).items;
    if 0 <= i < |items| {
      var matching := Matching(store, q, fold);
      var rows := Rows(store, q, fold);
      var off := Max(offset, 0);
      assert items == Window(rows, off, off + q.pageSize as int);
      assert off + i < |rows| && items[i] == rows[off + i];
      var m := matching[off + i];
      assert rows[off + i] == ToView(q.messageType)(m);
      assert MatchesFn(q, fold)(m);
      WhereMultiset(MessagesOf(store, q.messageType), MatchesFn(q, fold));
      assert multiset(matching)[m] > 0;
      assert m in MessagesOf(store, q.messageType);
      assert KeepsFields(q.messageType, items[i], m);
    }
  }

  /** With every filter empty, the listing covers the whole direction in store
      order, and its total is the direction's size. */
  lemma NoFiltersListEverything(store: Storage, q: MessageQuery, fold: CaseFold)
    requires IsNullOrEmpty(q.statusName) && IsNullOrEmpty(q.name)
    requires IsNullOrEmpty(q.group) && IsNullOrEmpty(q.content)
    ensures Matching(store, q, fold) == MessagesOf(store, q.messageType)
    ensures GetMessages(store, q, fold).totals == |MessagesOf(store, q.messageType)|
  {
    WhereAll(MessagesOf(store, q.messageType), MatchesFn(q, fold));
  }

  /** The group filter is ignored on the published side: the listing is the
      same whatever group the query names. */
  lemma PublishedListingIgnoresGroup(store: Storage, q: MessageQuery, fold: CaseFold, group: Option<string>)
    requires q.messageType == Publish
    ensures GetMessages(store, q.(group := group), fold) == GetMessages(store, q, fold)
  {
  }

  /** Pages 0 .. k-1 of a query. */
  function Pages(store: Storage, q: MessageQuery, fold: CaseFold, k: nat): seq<seq<MessageView>>
    requires k <= 0x8000_0000
  {
    seq(k, c requires 0 <= c < k => PageItemsAt(store, q, fold, c as int32))
  }

  /** Pages 0 .. k-1 of a query, concatenated. */
  function PagesUpTo(store: Storage, q: MessageQuery, fold: CaseFold, k: nat): seq<MessageView>
    requires k <= 0x8000_0000
  {
    Concat(Pages(store, q, fold, k))
  }

  /** The rows of page `c` of a query. */
  function PageItemsAt(store: Storage, q: MessageQuery, fold: CaseFold, c: int32): seq<MessageView>
  {
    GetMessages(store, q.(currentPage := c), fold).items
  }

  /** Changing only the page leaves the filtered rows unchanged. */
  lemma RowsIgnorePage(store: Storage, q: MessageQuery, fold: CaseFold, page: int32)
    ensures Rows(store, q.(currentPage := page), fold) == Rows(store, q, fold)
  {
    var q' := q.(currentPage := page);
    WhereCongruent(MessagesOf(store, q.messageType), MatchesFn(q', fold), MatchesFn(q, fold));
  }

  /** Page `c` holds the filtered rows from `c * size` up to `c * size + size`. */
  lemma NthPage(store: Storage, q: MessageQuery, fold: CaseFold, c: nat)
    requires 0 < q.pageSize && c < 0x8000_0000
    ensures PageItemsAt(store, q, fold, c as int32)
              == Window(Rows(store, q, fold), c * q.pageSize as int, c * q.pageSize as int + q.pageSize as int)
  {
    RowsIgnorePage(store, q, fold, c as int32);
    assert PageOffset(q.(currentPage := c as int32)) == c * q.pageSize as int;
  }

  /** Concatenating pages 0 .. k-1 reproduces the first `k * size` filtered
      rows, with nothing repeated and nothing skipped. */
  lemma PagesReassemble(store: Storage, q: MessageQuery, fold: CaseFold, k: nat)
    requires 0 < q.pageSize && k <= 0x8000_0000
    ensures PagesUpTo(store, q, fold, k) == Window(Rows(store, q, fold), 0, k * q.pageSize as int)
  {
    var rows := Rows(store, q, fold);
    var size := q.pageSize as int;
    var pages := Pages(store, q, fold, k);
    forall c | 0 <= c < k
      ensures pages[c] == Window(rows, c * size, c * size + size)
    {
      NthPage(store, q, fold, c);
    }
    ConcatWindows(pages, rows, size);
  }

  /** Enough pages cover the whole filtered listing, which is as long as the
      reported total. */
  lemma AllPagesCoverListing(store: Storage, q: MessageQuery, fold: CaseFold, k: nat)
    requires 0 < q.pageSize && k <= 0x8000_0000
    requires k * q.pageSize as int >= GetMessages(store, q, fold).totals
    ensures PagesUpTo(store, q, fold, k) == Rows(store, q, fold)
    ensures |PagesUpTo(store, q, fold, k)| == GetMessages(store, q, fold).totals
  {
    PagesReassemble(store, q, fold, k);
    var rows := Rows(store, q, fold);
    assert rows[0..|rows|] == rows;
  }

  // ---------------------------------------------------------------------
  // The 32-bit page offset
  // ---------------------------------------------------------------------

  /** When `CurrentPage * PageSize` fits in an `int`, the listing as written
      and the corrected one agree. */
  lemma AsWrittenAgreesWithoutOverflow(store: Storage, q: MessageQuery, fold: CaseFold)
    requires -0x8000_0000 <= PageOffset(q) < 0x8000_0000
    ensures GetMessagesAsWritten(store, q, fold) == GetMessages(store, q, fold)
  {
  }

  /** Pages 0 .. k-1 of a query, as the listing as written returns them. */
  function PagesAsWritten(store: Storage, q: MessageQuery, fold: CaseFold, k: nat): seq<seq<MessageView>>
    requires k <= 0x8000_0000
  {
    seq(k, c requires 0 <= c < k => GetMessagesAsWritten(store, q.(currentPage := c as int32), fold).items)
  }

  /** The listing as written reassembles like the corrected one as long as
      no page's offset wraps: while `k * PageSize` is at most 2^31, pages
      0 .. k-1 as written are the first `k * size` filtered rows. */
  lemma PagesAsWrittenReassemble(store: Storage, q: MessageQuery, fold: CaseFold, k: nat)
    requires 0 < q.pageSize && k <= 0x8000_0000 && k * q.pageSize as int <= 0x8000_0000
    ensures Concat(PagesAsWritten(store, q, fold, k)) == Window(Rows(store, q, fold), 0, k * q.pageSize as int)
  {
    var size := q.pageSize as int;
    var written := PagesAsWritten(store, q, fold, k);
    var corrected := Pages(store, q, fold, k);
    forall c | 0 <= c < k
      ensures written[c] == corrected[c]
    {
      var q' := q.(currentPage := c as int32);
      assert c * size + size <= k * size by { MulSucc(c, size); MonotoneMul(c + 1, k, size); }
      assert PageOffset(q') == c * size;
      AsWrittenAgreesWithoutOverflow(store, q', fold);
    }
    assert written == corrected;
    PagesReassemble(store, q, fold, k);
  }

  lemma MonotoneMul(a: nat, b: nat, size: nat)
    requires a <= b
    ensures a * size <= b * size
  {
  }

  /** `Skip` treats a negative count as zero: a listing whose skip offset is
      not positive, such as a negative `CurrentPage` with a positive
      `PageSize`, returns the first page. */
  lemma NonPositiveOffsetGivesFirstPage(store: Storage, q: MessageQuery, fold: CaseFold)
    ensures PageOffset(q) <= 0 ==>
              GetMessages(store, q, fold).items == GetMessages(store, q.(currentPage := 0), fold).items
    ensures WrapInt32(PageOffset(q)) <= 0 ==>
              GetMessagesAsWritten(store, q, fold).items == GetMessages(store, q.(currentPage := 0), fold).items
  {
    RowsIgnorePage(store, q, fold, 0);
  }

  function Sample(id: string): StoredMessage
  {
    StoredMessage(id, "order.created", "g", "{}", 0, None, 0, Succeeded)
  }

  /** Page 2147483647 of size 2 starts 4294967294 rows in, far past the end of
      a two-row listing, yet the 32-bit product wraps to -2, `Skip` treats it
      as 0, and the first page comes back. */
  lemma OffsetOverflowReturnsFirstPage()
    ensures var store := Storage([Sample("1"), Sample("2")], []);
            var q := MessageQuery(Publish, None, None, None, None, 0x7FFF_FFFF, 2);
            var fold := (c: char) => c;
            && GetMessagesAsWritten(store, q, fold).items == GetMessages(store, q.(currentPage := 0), fold).items
            && |GetMessagesAsWritten(store, q, fold).items| == 2
            && GetMessages(store, q, fold).items == []
  {
    var store := Storage([Sample("1"), Sample("2")], []);
    var q := MessageQuery(Publish, None, None, None, None, 0x7FFF_FFFF, 2);
    var fold := (c: char) => c;
    assert WrapInt32(PageOffset(q)) == -2;
    NoFiltersListEverything(store, q, fold);
    RowsIgnorePage(store, q, fold, 0);
    assert |Rows(store, q, fold)| == 2;
  }

  // ---------------------------------------------------------------------
  // A listing scenario
  // ---------------------------------------------------------------------

  function Orders(n: nat): seq<StoredMessage>
  {
    seq(n, i => Sample(InvariantString(i)))
  }

  /** Thirty succeeded messages named `order.created`, filtered by that name
      with pages of ten: page 2 holds ten rows out of a total of thirty, and
      they are the last ten orders. */
  lemma ThirtyOrdersThirdPage(fold: CaseFold)
    ensures var q := MessageQuery(Publish, None, Some("order.created"), None, None, 2, 10);
            var r := GetMessagesAsWritten(Storage(Orders(30), []), q, fold);
            && |r.items| == 10 && r.totals == 30
            && forall k :: 0 <= k < 10 ==> r.items[k].id == InvariantString(20 + k)
  {
    var store := Storage(Orders(30), []);
    var q := MessageQuery(Publish, None, Some("order.created"), None, None, 2, 10);
    forall i | 0 <= i < 30
      ensures MatchesFn(q, fold)(store.published[i])
    {
      assert EqualsIgnoreCase(store.published[i].name, "order.created", fold);
    }
    WhereAll(store.published, MatchesFn(q, fold));
  }

  // ---------------------------------------------------------------------
  // Timeline
  // ---------------------------------------------------------------------

  /** The sum of the counts of the first `k` entries. */
  function SumCounts(r: seq<TimelineEntry>, k: nat): nat
    requires k <= |r|
  {
    if k == 0 then 0 else SumCounts(r, k - 1) + r[k - 1].count
  }

  /** Messages in the given status (by name) added in an hour of `[lo, hi)`. */
  function StatusInHours(statusName: string, lo: int, hi: int): StoredMessage -> bool
  {
    (m: StoredMessage) => StatusText(m.status) == statusName && lo <= HourBucket(m.added) < hi
  }

  /** The first `k` entries together count the messages of the `k` most recent hours. */
  lemma {:induction false} TimelinePrefixTotal(ms: seq<StoredMessage>, statusName: string, h: int,
                                               r: seq<TimelineEntry>, k: nat)
    requires k <= |r|
    requires forall i :: 0 <= i < |r| ==> r[i].count == Count(ms, StatusInHour(statusName, h - i))
    ensures SumCounts(r, k) == Count(ms, StatusInHours(statusName, h + 1 - k, h + 1))
  {
    if k == 0 {
      CountNone(ms, StatusInHours(statusName, h + 1, h + 1));
    } else {
      TimelinePrefixTotal(ms, statusName, h, r, k - 1);
      HoursStep(ms, statusName, h + 1 - k, h + 1);
    }
  }

  /** Counting a range of hours is counting its first hour plus the rest. */
  lemma {:induction false} HoursStep(ms: seq<StoredMessage>, statusName: string, lo: int, hi: int)
    requires lo < hi
    ensures Count(ms, StatusInHours(statusName, lo, hi))
            == Count(ms, StatusInHours(statusName, lo + 1, hi)) + Count(ms, StatusInHour(statusName, lo))
  {
    HoursSplit(statusName, lo, hi);
    CountDisjointUnion(ms, StatusInHours(statusName, lo, hi),
                       StatusInHours(statusName, lo + 1, hi), StatusInHour(statusName, lo));
  }

  /** A range of hours is its first hour plus the rest. */
  lemma HoursSplit(statusName: string, lo: int, hi: int)
    requires lo < hi
    ensures forall m :: StatusInHours(statusName, lo, hi)(m)
                       == (StatusInHours(statusName, lo + 1, hi)(m) || StatusInHour(statusName, lo)(m))
    ensures forall m :: !(StatusInHours(statusName, lo + 1, hi)(m) && StatusInHour(statusName, lo)(m))
  {
  }

  /** The 24 entries together count exactly the messages of that status added
      in the 24 hours ending with the current one; messages outside those hours
      contribute nothing. */
  lemma TimelineTotal(store: Storage, t: MessageType, statusName: string, now: Instant)
    ensures var r := HourlyTimelineStats(store, t, statusName, now);
            SumCounts(r, |r|)
              == Count(MessagesOf(store, t),
                       StatusInHours(statusName, HourBucket(now) + 1 - TimelineLength, HourBucket(now) + 1))
  {
    TimelineSum(MessagesOf(store, t), statusName, now, HourlyTimelineStats(store, t, statusName, now));
  }

  /** Any 24 entries keyed by the last 24 hours and counting each hour's
      messages add up to the messages of those hours. */
  lemma TimelineSum(ms: seq<StoredMessage>, statusName: string, now: Instant, r: seq<TimelineEntry>)
    requires |r| == TimelineLength
    requires forall i :: 0 <= i < |r| ==> HourBucket(r[i].at) == HourBucket(now) - i
    requires forall i :: 0 <= i < |r| ==>
               r[i].count == Count(ms, StatusInHour(statusName, HourBucket(r[i].at)))
    ensures SumCounts(r, |r|) == Count(ms, StatusInHours(statusName, HourBucket(now) + 1 - |r|, HourBucket(now) + 1))
  {
    forall i | 0 <= i < |r|
      ensures r[i].count == Count(ms, StatusInHour(statusName, HourBucket(now) - i))
    {
    }
    TimelinePrefixTotal(ms, statusName, HourBucket(now), r, |r|);
  }
}

=== FILE: text.dfy ===
/** String operations the monitoring queries rely on: case-insensitive
    equality under a culture's case folding, ordinal substring search, and
    the invariant-culture decimal rendering of an integer. */
module Text {

  /** The per-character case folding of a culture. The invariant culture's
      table is not modelled; every statement below holds for any folding. */
  type CaseFold = char -> char

  /** `a.Equals(b, StringComparison.InvariantCultureIgnoreCase)`, taken as
      equality of the folded characters position by position. */
  predicate EqualsIgnoreCase(a: string, b: string, fold: CaseFold)
  {
    |a| == |b| && forall i :: 0 <= i < |a| ==> fold(a[i]) == fold(b[i])
  }

  /** `s.Contains(sub)`: ordinal, case-sensitive substring search. */
  predicate Contains(s: string, sub: string)
  {
    exists i :: 0 <= i <= |s| - |sub| && sub <= s[i..]
  }

  predicate IsDigit(c: char)
  {
    '0' <= c <= '9'
  }

  function DigitChar(d: int): (c: char)
    requires 0 <= d < 10
    ensures IsDigit(c)
  {
    (48 + d) as char
  }

  function DigitValue(c: char): (d: nat)
    requires IsDigit(c)
    ensures d < 10
  {
    c as int - 48
  }

  /** The decimal digits of `n`, most significant first, without leading zeros. */
  function Digits(n: nat): (s: string)
    ensures |s| >= 1
    ensures forall i :: 0 <= i < |s| ==> IsDigit(s[i])
    ensures |s| > 1 ==> s[0] != '0'
  {
    if n < 10 then [DigitChar(n)] else Digits(n / 10) + [DigitChar(n % 10)]
  }

  /** Reads a non-empty string of decimal digits. */
  function ParseDigits(s: string): nat
    requires forall i :: 0 <= i < |s| ==> IsDigit(s[i])
  {
    if |s| == 0 then 0 else 10 * ParseDigits(s[..|s| - 1]) + DigitValue(s[|s| - 1])
  }

  /** `n.ToString(CultureInfo.InvariantCulture)` for an integral `n`: a minus
      sign for negative values, then the digits of the magnitude. */
  function InvariantString(n: int): (s: string)
    ensures |s| >= 1
    ensures (s[0] == '-') <==> n < 0
    ensures forall i :: (if n < 0 then 1 else 0) <= i < |s| ==> IsDigit(s[i])
  {
    if n < 0 then "-" + Digits(-n) else Digits(n)
  }

  /** The rendered digits read back as the number they came from. */
  lemma {:induction false} DigitsRoundTrip(n: nat)
    ensures ParseDigits(Digits(n)) == n
  {
    if n >= 10 {
      var s := Digits(n);
      assert s[..|s| - 1] == Digits(n / 10);
      DigitsRoundTrip(n / 10);
    }
  }

  /** Distinct integers render to distinct strings: a lookup by the rendered
      id can only find a record stored under that very id. */
  lemma InvariantStringInjective(a: int, b: int)
    requires InvariantString(a) == InvariantString(b)
    ensures a == b
  {
    if a < 0 {
      assert Digits(-a) == InvariantString(a)[1..];
      DigitsRoundTrip(-a);
      DigitsRoundTrip(-b);
    } else {
      DigitsRoundTrip(a);
      DigitsRoundTrip(b);
    }
  }
}
